=== FILE: README.md ===
# Stock service record management, modelled in Dafny

This project models the in-process record logic of the stock microservice.
The service keeps an in-memory, insertion-ordered collection of `Stock`
records. A record is a named storage location with a description, a creation
time and the id of its creator. The service offers four operations on that
collection:

- `create_new` allocates the next id (one above the largest, 1 for an empty
  store), builds the record, appends it and returns it;
- `get_by_id` looks a record up by id;
- `update_by_id` overwrites a record's name and description in place;
- `get_all` lists every record in store order.

The model is functional. A `Stock` is an immutable datatype and the store is
a `seq<Stock>`. Each operation is a pure function from a store to a `Reply`,
which holds the new store and a result (`Ok` or `NotFound`/`Internal`).

Modules:

- `Wrappers` (`wrappers.dfy`) defines `Option` and `Result`.
- `StockRecord` (`stock.dfy`) models `src/stock.rs`: the record, `Stock::new`, `Stock::update` and `get_id`. It also defines a `u32` newtype.
- `RecordStore` (`record_store.dfy`) abstracts the `VecPack` collection from the `packman` crate. It is a sequence with these operations: `insert`, which appends and refuses a duplicate id; `find_id`, which returns the first record with that id; and `last`.
- `StockService` (`service.dfy`) models `StockService` in `src/main.rs`: `next_id` and the four operations.
- `ServiceProperties` (`properties.dfy`) holds lemmas that relate several operations. Among them: invariants kept over any sequence of requests, ids 1..N from N sequential creates, lookups after creates and updates, and a scenario in which a warehouse is created, renamed and read back.

Modelling choices:

- Every operation is one atomic step. The service's mutex is left out.
  `create_new` takes the lock three times: for the `next_id` scan, for the
  insert, and for the re-read of the last element. In the model these form
  one step, so the re-read returns the record that was just appended.
- The clock reading `Utc::now()` is passed in as a `Timestamp` argument.
- `latest_id + 1` in `next_id` is on `u32`. The model uses release-build
  semantics, where the sum wraps modulo 2^32. Freshness of the allocated id is
  therefore stated under `MaxId(s) < U32_MAX`. `CreateNewAfterMaxIdWraps`
  shows what happens at the limit: once id `u32::MAX` is stored, every create
  is given id 0. The first such create succeeds if no record has id 0. After
  that, `CreateAllStuckAfterWrap` shows that every later create fails with an
  internal error and the store stays the same. Id uniqueness holds in all
  cases, because the store's insert refuses a duplicate id.
- The `?` on the failed insert is taken to give an internal error. The
  `ServiceError` conversion in `prelude` is not part of this model.

## Model

| member | source | states |
|---|---|---|
| StockRecord.NewStock | src/stock.rs:31-39 | the new record's id, name, description and creator are exactly the arguments, and its creation time is the clock reading passed in |
| StockRecord.Update | src/stock.rs:40-44 | name and description become the given values; id, creation time and creator are unchanged; the returned value is the updated record |
| StockRecord.UpdateIdempotent | src/stock.rs:40-44 | applying update twice with the same arguments gives the same record as applying it once |
| StockRecord.UpdateForgetsPreviousEdits | src/stock.rs:40-44 | update is total: an earlier edit leaves no trace once both fields are overwritten again |
| StockRecord.GetId | src/stock.rs:50-52 | the store key of a record is its id field |
| RecordStore.FindIndex | src/main.rs:60 | returns the position of the first record with the id, or nothing exactly when no record has that id |
| RecordStore.FindId | src/main.rs:56-63 | returns the first stored record with the requested id, or nothing exactly when the id is absent; with distinct ids that record is the only one with the id |
| RecordStore.Insert | src/main.rs:39 | appends the record exactly when its id is absent, otherwise fails with the duplicate id; a successful insert keeps ids distinct |
| RecordStore.Last | src/main.rs:42-47 | gives the final record of the store, and nothing exactly when the store is empty |
| StockService.WrappingAdd | src/main.rs:34 | u32 addition equals the exact sum when it fits and the sum minus 2^32 when it overflows |
| StockService.MaxId | src/main.rs:27-33 | the scan result is at least every id in the store, equals some stored id when the store is non-empty, and is 0 for an empty store |
| StockService.NextId | src/main.rs:26-35 | gives 1 for an empty store; below the u32 limit it is one more than the largest id; at the limit it wraps to 0 |
| StockService.NextIdIsFresh | src/main.rs:26-35 | below the u32 limit the allocated id is above every stored id and so not yet in use |
| StockService.NextIdScan | src/main.rs:26-35 | the single pass that keeps a running maximum computes the same id as NextId |
| StockService.CreateNew | src/main.rs:36-52 | succeeds exactly when the allocated id is unused, and always does below the u32 limit; on success the store grows by exactly the returned record, which carries the allocated id, the requested name, description and creator, and the creation time; on failure it gives an internal error and leaves the store unchanged; distinct ids stay distinct |
| StockService.GetById | src/main.rs:54-67 | leaves the store unchanged; succeeds exactly when the id is present, with the first stored record of that id (the only one when ids are distinct); otherwise gives not-found |
| StockService.UpdateById | src/main.rs:69-85 | keeps the store's length; succeeds exactly when the id is present, and then replaces the first record with that id by its update, leaves every other position unchanged, and returns the updated record; on a missing id gives not-found and leaves the store unchanged; no record's id, creation time or creator changes |
| StockService.GetAll | src/main.rs:87-96 | leaves the store unchanged and returns a listing of the same length with the same records in store order |
| ServiceProperties.UpdateByIdTouchesOnlyItsRecord | src/main.rs:69-85 | with distinct ids, exactly the record with the requested id is updated (and is what is returned), every other record stays identical, and ids stay distinct |
| ServiceProperties.ServeKeepsInvariants | src/main.rs:36-96 | any single request keeps ids distinct, removes or reorders no record, and changes no id, creation time or creator |
| ServiceProperties.ServeAllKeepsUniqueIds | src/main.rs:36-96 | over any sequence of requests served one after another, ids stay pairwise distinct |
| ServiceProperties.ServeAllExtends | src/main.rs:36-96 | over any sequence of requests no record is removed or reordered and no id, creation time or creator changes |
| ServiceProperties.NumberedMaxId | src/main.rs:26-35 | in a store numbered 1..n the largest id is n |
| ServiceProperties.CreateAllContinuesNumbering | src/main.rs:36-52 | from a store numbered 1..n, sequential creates within the u32 range all succeed, continue the numbering in order, and store exactly the returned records with their requested fields |
| ServiceProperties.SequentialCreatesNumberFromOne | src/main.rs:26-52 | N sequential creates from an empty store return and store ids 1..N in creation order |
| ServiceProperties.NumberedLookup | src/main.rs:54-67 | in a store numbered 1..n, a lookup succeeds exactly for ids 1..n and every other id is not-found |
| ServiceProperties.NumberedUpdate | src/main.rs:69-85 | in a store numbered 1..n, an update succeeds exactly for ids 1..n and every other id is not-found |
| ServiceProperties.ServeKeepsNumbering | src/main.rs:26-96 | any single request on a store numbered 1..n leaves it numbered from 1; only a create, made below the u32 limit, may add a record, and at most one |
| ServiceProperties.ServeAllKeepsNumbering | src/main.rs:26-96 | any run of requests whose creates stay within the u32 range keeps a store numbered from 1, growing by at most one record per create |
| ServiceProperties.ServedNumberedLookupAndUpdate | src/main.rs:54-85 | after any run from an empty store with at most u32::MAX creates (reads unbounded), a lookup or an update succeeds exactly for ids 1..n |
| ServiceProperties.ServeStoredIds | src/main.rs:36-96 | a single request adds an id to the store exactly when it is a create that succeeds and returns that id; no request removes an id |
| ServiceProperties.StoredIdsAreHandedOut | src/main.rs:36-96 | over any run, an id is in the final store exactly when it was there initially or was returned by one of the run's successful creates |
| ServiceProperties.ServedLookupAndUpdate | src/main.rs:54-85 | after any run of requests from an empty store, of any length and past the u32 wrap, a lookup or an update succeeds exactly for the ids that creates returned; any other id is not-found |
| ServiceProperties.CreateNewAfterMaxIdWraps | src/main.rs:26-52 | once id u32::MAX is stored, the next id is 0; the create succeeds, with id 0, exactly when no record has id 0, and otherwise fails with an internal error and leaves the store unchanged |
| ServiceProperties.CreateAllStuckAfterWrap | src/main.rs:26-52 | once ids u32::MAX and 0 are both stored, every later sequence of creates returns nothing and leaves the store unchanged |
| ServiceProperties.GetAllAfterCreateNew | src/main.rs:36-52 | after any successful create (including one after the wrap to id 0), the listing is the earlier listing followed by the new record |
| ServiceProperties.GetByIdAfterCreateNew | src/main.rs:36-67 | after any successful create (including one after the wrap to id 0), the record just created is found by its id and equals the record create returned |
| ServiceProperties.GetByIdAfterUpdateById | src/main.rs:54-85 | after an update of a present id, a lookup of that id returns the updated record |
| ServiceProperties.WarehouseScenario | src/main.rs:36-85 | creating "Warehouse A" in an empty store gives id 1; renaming it returns the renamed record with the creator unchanged; looking up id 1 returns it; id 99 is not-found |

## Left out

- The `tokio::sync::Mutex` (src/main.rs:14) and the three separate lock acquisitions in `create_new`: the `next_id` scan (src/main.rs:28, called at src/main.rs:37), the insert (src/main.rs:39) and the re-read of the last element (src/main.rs:44). Each operation is modelled as one atomic step, so the interleavings between them are not represented.
- StockService.CreateNew: the contract promises success below the u32 limit only because the model is sequential. Between the scan and the insert, two concurrent creates can allocate the same id; the second insert is then refused and the caller gets an internal error. Between the insert and the re-read, another create can append, so the re-read can return the other call's record. Neither hazard is modelled.
- The tonic service trait implementation and the streaming of `get_all` through an mpsc channel from a spawned task (src/main.rs:99-140). This is transport and async plumbing. The order of the streamed records is the order of the `get_all` result.
- `main` (src/main.rs:142-173): loading the database, reading the bind address from `SERVICE_ADDR_STOCK`, spawning the server, and the ctrl-c/oneshot shutdown. This is all I/O and process lifecycle.
- `StockService::new` (src/main.rs:18-22). It only wraps the store in the mutex.
- `Stock::default` (src/stock.rs:15-24). The operations modelled here never use it.
- `VecPack` persistence and `load_or_init`. The store is a sequence. An insert is refused only for a duplicate id; a failed disk write is not modelled.
- `Utc::now()` (src/stock.rs:21,36). The clock is a parameter.
- The `StockObject` conversions, the `ServiceError`/`Status` mapping and the Hungarian error messages. `prelude` is not part of this model, and errors are reduced to `NotFound | Internal`.
- StockService.NextId: the model does not include the panic that a debug build raises when `latest_id + 1` overflows. It models the release-build wrap-around only.

=== FILE: properties.dfy ===
/**
 Properties of the stock service that relate several operations: the store
 invariants every operation keeps, sequential id allocation, and the
 behaviour of listing after creation.
 */
module ServiceProperties {
  import opened Wrappers
  import opened StockRecord
  import opened RecordStore
  import opened StockService

  /** With distinct keys, an update touches exactly the one record carrying `id`. */
  lemma UpdateByIdTouchesOnlyItsRecord(s: Store, id: u32, name: string, description: string)
    requires UniqueIds(s)
    ensures var r := UpdateById(s, id, name, description);
            forall j :: 0 <= j < |s| ==>
              && (s[j].id == id ==> r.store[j] == Update(s[j], name, description) == r.result.value)
              && (s[j].id != id ==> r.store[j] == s[j])
    ensures UniqueIds(UpdateById(s, id, name, description).store)
  {
    var r := UpdateById(s, id, name, description);
    if r.result.Ok? {
      var i :| 0 <= i < |s| && s[i].id == id && UpdatedAt(s, r.store, i, name, description)
               && r.result.value == r.store[i];
      forall j | 0 <= j < |s|
        ensures s[j].id == id ==> r.store[j] == Update(s[j], name, description) == r.result.value
        ensures s[j].id != id ==> r.store[j] == s[j]
      {
        if j != i {
          assert s[j].id != id;
        }
      }
    }
    assert forall j :: 0 <= j < |s| ==> r.store[j].id == s[j].id;
  }

  /** One request to the service. */
  datatype Request =
    | CreateNewRequest(name: string, description: string, createdBy: u32, now: Timestamp)
    | GetByIdRequest(id: u32)
    | UpdateByIdRequest(id: u32, name: string, description: string)
    | GetAllRequest

  /** The store after serving one request. */
  function Serve(s: Store, q: Request): Store
  {
    match q
    case CreateNewRequest(name, description, createdBy, now) => CreateNew(s, name, description, createdBy, now).store
    case GetByIdRequest(id) => GetById(s, id).store
    case UpdateByIdRequest(id, name, description) => UpdateById(s, id, name, description).store
    case GetAllRequest => GetAll(s).store
  }

  /** The store after serving the requests one after another, each atomically. */
  function ServeAll(s: Store, qs: seq<Request>): Store
    decreases |qs|
  {
    if |qs| == 0 then s else ServeAll(Serve(s, qs[0]), qs[1..])
  }

  /**
   `t` extends `s`: no record was removed or reordered, and every record kept
   its key, creation time and creator.
   */
  predicate Extends(s: Store, t: Store)
  {
    |s| <= |t| && forall i :: 0 <= i < |s| ==> SameIdentity(s[i], t[i])
  }

  lemma ServeKeepsInvariants(s: Store, q: Request)
    ensures UniqueIds(s) ==> UniqueIds(Serve(s, q))
    ensures Extends(s, Serve(s, q))
  {
    match q
    case CreateNewRequest(name, description, createdBy, now) =>
    case GetByIdRequest(id) =>
    case UpdateByIdRequest(id, name, description) =>
      if UniqueIds(s) {
        UpdateByIdTouchesOnlyItsRecord(s, id, name, description);
      }
    case GetAllRequest =>
  }

  lemma ExtendsTransitive(s: Store, t: Store, u: Store)
    requires Extends(s, t) && Extends(t, u)
    ensures Extends(s, u)
  {
  }

  /** Over any run of requests the keys stay pairwise distinct. */
  lemma {:induction false} ServeAllKeepsUniqueIds(s: Store, qs: seq<Request>)
    requires UniqueIds(s)
    ensures UniqueIds(ServeAll(s, qs))
    decreases |qs|
  {
    if |qs| > 0 {
      ServeKeepsInvariants(s, qs[0]);
      ServeAllKeepsUniqueIds(Serve(s, qs[0]), qs[1..]);
    }
  }

  /**
   Over any run of requests no record is lost or moved, and the id, creation
   time and creator of every record never change.
   */
  lemma {:induction false} ServeAllExtends(s: Store, qs: seq<Request>)
    ensures Extends(s, ServeAll(s, qs))
    decreases |qs|
  {
    if |qs| > 0 {
      var s1 := Serve(s, qs[0]);
      ServeKeepsInvariants(s, qs[0]);
      ServeAllExtends(s1, qs[1..]);
      ExtendsTransitive(s, s1, ServeAll(s1, qs[1..]));
    }
  }

  /** The records `create_new` returned, in call order, and the final store. */
  datatype Batch = Batch(store: Store, created: seq<Stock>)

  /** Sequential `create_new` calls; failed calls return nothing. */
  function CreateAll(s: Store, qs: seq<(string, string, u32, Timestamp)>): Batch
    decreases |qs|
  {
    if |qs| == 0 then Batch(s, [])
    else
      var r := CreateNew(s, qs[0].0, qs[0].1, qs[0].2, qs[0].3);
      var rest := CreateAll(r.store, qs[1..]);
      match r.result
      case Ok(x) => Batch(rest.store, [x] + rest.created)
      case Err(_) => rest
  }

  /** The keys of `s` are 1, 2, ..., |s| in store order. */
  predicate NumberedFromOne(s: Store)
  {
    forall k :: 0 <= k < |s| ==> s[k].id as int == k + 1
  }

  lemma NumberedMaxId(s: Store)
    requires NumberedFromOne(s)
    ensures MaxId(s) as int == |s|
  {
    if |s| > 0 {
      assert s[|s| - 1].id <= MaxId(s);
    }
  }

  /**
   Starting from a store numbered 1..n, sequential creates that stay within
   the `u32` range all succeed and continue the numbering n+1, n+2, ... in
   order, each stored and returned record carrying its request's fields.
   */
  lemma {:induction false} CreateAllContinuesNumbering(s: Store, qs: seq<(string, string, u32, Timestamp)>)
    requires NumberedFromOne(s)
    requires |s| + |qs| <= U32_MAX as int
    ensures var b := CreateAll(s, qs);
            && b.store == s + b.created
            && |b.created| == |qs|
            && NumberedFromOne(b.store)
            && forall k :: 0 <= k < |qs| ==>
                 && b.created[k].name == qs[k].0
                 && b.created[k].description == qs[k].1
                 && b.created[k].createdBy == qs[k].2
                 && b.created[k].createdAt == qs[k].3
    decreases |qs|
  {
    if |qs| > 0 {
      NumberedMaxId(s);
      var r := CreateNew(s, qs[0].0, qs[0].1, qs[0].2, qs[0].3);
      assert r.result.Ok?;
      var x := r.result.value;
      assert x.id as int == |s| + 1;
      assert NumberedFromOne(r.store);
      CreateAllContinuesNumbering(r.store, qs[1..]);
      var rest := CreateAll(r.store, qs[1..]);
      var b := CreateAll(s, qs);
      assert b == Batch(rest.store, [x] + rest.created);
      forall k | 0 <= k < |qs|
        ensures b.created[k].name == qs[k].0
        ensures b.created[k].description == qs[k].1
        ensures b.created[k].createdBy == qs[k].2
        ensures b.created[k].createdAt == qs[k].3
      {
        if k > 0 {
          assert b.created[k] == rest.created[k - 1];
          assert qs[k] == qs[1..][k - 1];
        }
      }
    }
  }

  /** N sequential creates on an empty store return, and store, ids 1..N in order. */
  lemma SequentialCreatesNumberFromOne(qs: seq<(string, string, u32, Timestamp)>)
    requires |qs| <= U32_MAX as int
    ensures var b := CreateAll([], qs);
            && b.created == b.store
            && |b.created| == |qs|
            && forall k :: 0 <= k < |qs| ==> b.created[k].id as int == k + 1
  {
    CreateAllContinuesNumbering([], qs);
  }

  /** In a store numbered 1..n, exactly the keys 1..n are found; every other key is `NotFound`. */
  lemma NumberedLookup(s: Store, id: u32)
    requires NumberedFromOne(s)
    ensures GetById(s, id).result.Ok? <==> 1 <= id as int <= |s|
    ensures GetById(s, id).result.Err? ==> GetById(s, id).result.error == NotFound
  {
    if 1 <= id as int <= |s| {
      assert s[id as int - 1].id == id;
    }
  }

  /** In a store numbered 1..n, an update succeeds exactly for ids 1..n; every other id is `NotFound`. */
  lemma NumberedUpdate(s: Store, id: u32, name: string, description: string)
    requires NumberedFromOne(s)
    ensures UpdateById(s, id, name, description).result.Ok? <==> 1 <= id as int <= |s|
    ensures UpdateById(s, id, name, description).result.Err? ==>
              UpdateById(s, id, name, description).result.error == NotFound
  {
    if 1 <= id as int <= |s| {
      assert s[id as int - 1].id == id;
    }
  }

  /** The number of create requests in `qs`. */
  function Creates(qs: seq<Request>): nat
    decreases |qs|
  {
    if |qs| == 0 then 0 else (if qs[0].CreateNewRequest? then 1 else 0) + Creates(qs[1..])
  }

  /**
   Any single request on a store numbered 1..n leaves it numbered; only a
   create, made below the `u32` limit, may add the record n+1.
   */
  lemma ServeKeepsNumbering(s: Store, q: Request)
    requires NumberedFromOne(s)
    requires q.CreateNewRequest? ==> |s| < U32_MAX as int
    ensures NumberedFromOne(Serve(s, q))
    ensures |s| <= |Serve(s, q)| <= |s| + (if q.CreateNewRequest? then 1 else 0)
  {
    NumberedMaxId(s);
    match q
    case CreateNewRequest(name, description, createdBy, now) =>
    case GetByIdRequest(id) =>
    case UpdateByIdRequest(id, name, description) =>
    case GetAllRequest =>
  }

  /**
   Any run of requests whose creates stay within the `u32` range keeps a
   store numbered 1..n numbered, growing by at most one record per create.
   */
  lemma {:induction false} ServeAllKeepsNumbering(s: Store, qs: seq<Request>)
    requires NumberedFromOne(s) && |s| + Creates(qs) <= U32_MAX as int
    ensures NumberedFromOne(ServeAll(s, qs))
    ensures |s| <= |ServeAll(s, qs)| <= |s| + Creates(qs)
    decreases |qs|
  {
    if |qs| > 0 {
      ServeKeepsNumbering(s, qs[0]);
      ServeAllKeepsNumbering(Serve(s, qs[0]), qs[1..]);
    }
  }

  /**
   After any run from an empty store with at most `u32::MAX` creates, a lookup
   or an update succeeds exactly for the ids 1..n; any other id is `NotFound`.
   */
  lemma ServedNumberedLookupAndUpdate(qs: seq<Request>, id: u32, name: string, description: string)
    requires Creates(qs) <= U32_MAX as int
    ensures var t := ServeAll([], qs);
            && (GetById(t, id).result.Ok? <==> 1 <= id as int <= |t|)
            && (UpdateById(t, id, name, description).result.Ok? <==> 1 <= id as int <= |t|)
  {
    ServeAllKeepsNumbering([], qs);
    var t := ServeAll([], qs);
    NumberedLookup(t, id);
    NumberedUpdate(t, id, name, description);
  }

  /** The id a single request returns from a successful create, if any. */
  function StepHandedOut(s: Store, q: Request): seq<u32>
  {
    match q
    case CreateNewRequest(name, description, createdBy, now) =>
      var c := CreateNew(s, name, description, createdBy, now);
      if c.result.Ok? then [c.result.value.id] else []
    case _ => []
  }

  /** The ids returned by the successful creates of a run, in call order. */
  function HandedOut(s: Store, qs: seq<Request>): seq<u32>
    decreases |qs|
  {
    if |qs| == 0 then [] else StepHandedOut(s, qs[0]) + HandedOut(Serve(s, qs[0]), qs[1..])
  }

  /** One request adds a key to the store exactly when it is a create that succeeds. */
  lemma ServeStoredIds(s: Store, q: Request, id: u32)
    ensures HasId(Serve(s, q), id) <==>
              || HasId(s, id)
              || id in StepHandedOut(s, q)
  {
    match q
    case CreateNewRequest(name, description, createdBy, now) =>
      var c := CreateNew(s, name, description, createdBy, now);
      if c.result.Ok? {
        assert c.store[|s|].id == c.result.value.id;
        if HasId(s, id) {
          var i :| 0 <= i < |s| && s[i].id == id;
          assert c.store[i] == s[i];
        }
      }
    case GetByIdRequest(_) =>
    case UpdateByIdRequest(key, name, description) =>
      var u := UpdateById(s, key, name, description);
      if HasId(s, id) {
        var i :| 0 <= i < |s| && s[i].id == id;
        assert u.store[i].id == id;
      }
      if HasId(u.store, id) {
        var i :| 0 <= i < |u.store| && u.store[i].id == id;
        assert s[i].id == id;
      }
    case GetAllRequest =>
  }

  /**
   Over any run, a key is in the final store exactly when it was in the
   initial store or was returned by one of the run's successful creates.
   */
  lemma {:induction false} StoredIdsAreHandedOut(s: Store, qs: seq<Request>, id: u32)
    ensures HasId(ServeAll(s, qs), id) <==> HasId(s, id) || id in HandedOut(s, qs)
    decreases |qs|
  {
    if |qs| > 0 {
      var s1 := Serve(s, qs[0]);
      ServeStoredIds(s, qs[0], id);
      StoredIdsAreHandedOut(s1, qs[1..], id);
      assert HandedOut(s, qs) == StepHandedOut(s, qs[0]) + HandedOut(s1, qs[1..]);
    }
  }

  /**
   After any run of requests from an empty store, with no bound on its length
   and past the `u32` wrap, a lookup or an update succeeds exactly for the ids
   the creates returned; any other id is `NotFound`.
   */
  lemma ServedLookupAndUpdate(qs: seq<Request>, id: u32, name: string, description: string)
    ensures var t := ServeAll([], qs);
            && (GetById(t, id).result.Ok? <==> id in HandedOut([], qs))
            && (UpdateById(t, id, name, description).result.Ok? <==> id in HandedOut([], qs))
            && (GetById(t, id).result.Err? ==> GetById(t, id).result.error == NotFound)
            && (UpdateById(t, id, name, description).result.Err? ==>
                  UpdateById(t, id, name, description).result.error == NotFound)
  {
    StoredIdsAreHandedOut([], qs, id);
  }

  /**
   Once the store holds the key `u32::MAX`, `latest_id + 1` wraps and every
   create is given key 0, below every other key. That create succeeds only
   while no record has key 0; the duplicate check in the insert still keeps
   keys distinct.
   */
  lemma CreateNewAfterMaxIdWraps(s: Store, name: string, description: string, createdBy: u32, now: Timestamp)
    requires HasId(s, U32_MAX)
    ensures NextId(s) == 0
    ensures var c := CreateNew(s, name, description, createdBy, now);
            && (c.result.Ok? <==> !HasId(s, 0))
            && (c.result.Ok? ==> c.result.value.id == 0)
            && (HasId(s, 0) ==> c.result == Err(Internal) && c.store == s)
  {
    var i :| 0 <= i < |s| && s[i].id == U32_MAX;
    assert MaxId(s) == U32_MAX;
  }

  /**
   Once both `u32::MAX` and 0 are keys of the store, every later create fails
   with an internal error and the store never changes again.
   */
  lemma {:induction false} CreateAllStuckAfterWrap(s: Store, qs: seq<(string, string, u32, Timestamp)>)
    requires HasId(s, U32_MAX) && HasId(s, 0)
    ensures CreateAll(s, qs) == Batch(s, [])
    decreases |qs|
  {
    if |qs| > 0 {
      CreateNewAfterMaxIdWraps(s, qs[0].0, qs[0].1, qs[0].2, qs[0].3);
      CreateAllStuckAfterWrap(s, qs[1..]);
    }
  }

  /** Listing after a successful create shows the earlier listing followed by the new record. */
  lemma GetAllAfterCreateNew(s: Store, name: string, description: string, createdBy: u32, now: Timestamp)
    requires CreateNew(s, name, description, createdBy, now).result.Ok?
    ensures var c := CreateNew(s, name, description, createdBy, now);
            GetAll(c.store).result.value == GetAll(s).result.value + [c.result.value]
  {
  }

  /** After appending a record whose key was absent, the first record with that key is the appended one. */
  lemma FindIndexAfterAppend(s: Store, x: Stock)
    requires !HasId(s, x.id)
    ensures FindIndex(s + [x], x.id) == Some(|s|)
  {
    assert (s + [x])[|s|].id == x.id;
  }

  /** Updating the first record with a key keeps it the first record with that key. */
  lemma FindIndexAfterUpdate(s: Store, id: u32, i: nat, name: string, description: string)
    requires FindIndex(s, id) == Some(i)
    ensures FindIndex(s[i := Update(s[i], name, description)], id) == Some(i)
  {
    var t := s[i := Update(s[i], name, description)];
    assert t[i].id == id;
  }

  /** A record just created can be looked up by the id it was given. */
  lemma GetByIdAfterCreateNew(s: Store, name: string, description: string, createdBy: u32, now: Timestamp)
    requires CreateNew(s, name, description, createdBy, now).result.Ok?
    ensures var c := CreateNew(s, name, description, createdBy, now);
            GetById(c.store, c.result.value.id).result == c.result
  {
    var c := CreateNew(s, name, description, createdBy, now);
    FindIndexAfterAppend(s, c.result.value);
  }

  /** Looking a record up after updating it returns the updated record. */
  lemma GetByIdAfterUpdateById(s: Store, id: u32, name: string, description: string)
    requires HasId(s, id)
    ensures var u := UpdateById(s, id, name, description);
            GetById(u.store, id).result == u.result
  {
    var i := FindIndex(s, id).value;
    FindIndexAfterUpdate(s, id, i, name, description);
  }

  /** Create, rename, read back, and miss an unknown id. */
  lemma WarehouseScenario(now: Timestamp)
    ensures var c := CreateNew([], "Warehouse A", "Main depot", 7, now);
            && c.result == Ok(Stock(1, "Warehouse A", "Main depot", now, 7))
            && var u := UpdateById(c.store, 1, "Warehouse A1", "Main depot, renamed");
               && u.result == Ok(Stock(1, "Warehouse A1", "Main depot, renamed", now, 7))
               && GetById(u.store, 1).result == u.result
               && GetById(u.store, 99).result == Err(NotFound)
  {
    var c := CreateNew([], "Warehouse A", "Main depot", 7, now);
    assert c.store == [Stock(1, "Warehouse A", "Main depot", now, 7)];
    var u := UpdateById(c.store, 1, "Warehouse A1", "Main depot, renamed");
    assert u.store == [Stock(1, "Warehouse A1", "Main depot, renamed", now, 7)];
  }
}

=== FILE: record_store.dfy ===
/**
 The ordered, id-keyed record collection the service holds (the `VecPack` of
 the `packman` crate). Only the operations the service uses are modelled: full
 iteration, append-insert that refuses a duplicate id, lookup by id, and
 access to the last element.
 */
module RecordStore {
  import opened Wrappers
  import opened StockRecord

  /** Records in insertion order. */
  type Store = seq<Stock>

  datatype StoreError = DuplicateId(id: u32)

  /** Some record of `s` carries the key `id`. */
  predicate HasId(s: Store, id: u32)
  {
    exists i :: 0 <= i < |s| && s[i].id == id
  }

  /** No two records of `s` share a key. */
  predicate UniqueIds(s: Store)
  {
    forall i, j :: 0 <= i < j < |s| ==> s[i].id != s[j].id
  }

  /** The position of the first record with key `id`, if any. */
  function FindIndex(s: Store, id: u32): (r: Option<nat>)
    ensures r.Some? ==> r.value < |s| && s[r.value].id == id
    ensures r.Some? ==> forall j :: 0 <= j < r.value ==> s[j].id != id
    ensures r.None? <==> !HasId(s, id)
    decreases |s|
  {
    if |s| == 0 then None
    else if GetId(s[0]) == id then Some(0)
    else
      match FindIndex(s[1..], id)
      case None => None
      case Some(k) => Some(k + 1)
  }

  /** `find_id`: the first record with key `id`, unchanged, or nothing. */
  function FindId(s: Store, id: u32): (r: Option<Stock>)
    ensures r.Some? <==> HasId(s, id)
    ensures r.Some? ==> r.value in s && r.value.id == id
    ensures r.Some? ==> exists i :: 0 <= i < |s| && s[i] == r.value && forall j :: 0 <= j < i ==> s[j].id != id
    ensures r.Some? && UniqueIds(s) ==> forall i :: 0 <= i < |s| && s[i].id == id ==> s[i] == r.value
  {
    match FindIndex(s, id)
    case None => None
    case Some(i) => Some(s[i])
  }

  /** `insert`: appends `x` unless its key is already present. */
  function Insert(s: Store, x: Stock): (r: Result<Store, StoreError>)
    ensures r.Ok? <==> !HasId(s, x.id)
    ensures r.Ok? ==> r.value == s + [x]
    ensures r.Err? ==> r.error == DuplicateId(x.id)
    ensures r.Ok? && UniqueIds(s) ==> UniqueIds(r.value)
  {
    if FindIndex(s, GetId(x)).Some? then Err(DuplicateId(x.id)) else Ok(s + [x])
  }

  /** `last`: the most recently inserted record, or nothing for an empty store. */
  function Last(s: Store): (r: Option<Stock>)
    ensures r.Some? <==> |s| > 0
    ensures r.Some? ==> r.value == s[|s| - 1]
  {
    if |s| == 0 then None else Some(s[|s| - 1])
  }
}

=== FILE: service.dfy ===
/**
 The stock manager: id allocation and the four record operations of
 `StockService`. The lock around the store is not modelled, so every
 operation is one atomic step from a store to a store and a result.
 */
module StockService {
  import opened Wrappers
  import opened StockRecord
  import opened RecordStore

  /** The two failures the service reports to its callers. */
  datatype ServiceError = NotFound | Internal

  /** The store after an operation, together with what the operation returned. */
  datatype Reply<+T> = Reply(store: Store, result: Result<T, ServiceError>)

  /** `a + b` on `u32` as a release build computes it: modulo 2^32. */
  function WrappingAdd(a: u32, b: u32): (r: u32)
    ensures a as int + b as int <= U32_MAX as int ==> r as int == a as int + b as int
    ensures a as int + b as int > U32_MAX as int ==> r as int == a as int + b as int - 0x1_0000_0000
  {
    ((a as int + b as int) % 0x1_0000_0000) as u32
  }

  /** The largest key in the store, starting from 0 as the scan in `next_id` does. */
  function MaxId(s: Store): (m: u32)
    ensures forall i :: 0 <= i < |s| ==> s[i].id <= m
    ensures |s| > 0 ==> exists i :: 0 <= i < |s| && s[i].id == m
    ensures |s| == 0 ==> m == 0
    decreases |s|
  {
    if |s| == 0 then 0
    else
      var m := MaxId(s[..|s| - 1]);
      if GetId(s[|s| - 1]) > m then GetId(s[|s| - 1]) else m
  }

  /** `next_id`: one more than the largest key, 1 for an empty store. */
  function NextId(s: Store): (r: u32)
    ensures |s| == 0 ==> r == 1
    ensures MaxId(s) < U32_MAX ==> r as int == MaxId(s) as int + 1
    ensures MaxId(s) == U32_MAX ==> r == 0
  {
    WrappingAdd(MaxId(s), 1)
  }

  /** Below the `u32` limit the allocated id is above every stored id, hence not yet in use. */
  lemma NextIdIsFresh(s: Store)
    ensures MaxId(s) < U32_MAX ==> forall i :: 0 <= i < |s| ==> s[i].id < NextId(s)
    ensures MaxId(s) < U32_MAX ==> !HasId(s, NextId(s))
  {
  }

  /** The scan as `next_id` writes it: one pass keeping the running maximum. */
  method NextIdScan(s: Store) returns (r: u32)
    ensures r == NextId(s)
  {
    var latest: u32 := 0;
    var i := 0;
    while i < |s|
      invariant 0 <= i <= |s|
      invariant latest == MaxId(s[..i])
    {
      assert s[..i + 1][..i] == s[..i];
      var id := GetId(s[i]);
      if id > latest {
        latest := id;
      }
      i := i + 1;
    }
    assert s[..|s|] == s;
    r := WrappingAdd(latest, 1);
  }

  /**
   `create_new`: allocate an id, build the record, insert it, then read the
   last element back and return it. A refused insert is an internal error.
   */
  function CreateNew(s: Store, name: string, description: string, createdBy: u32, now: Timestamp): (r: Reply<Stock>)
    ensures r.result.Ok? <==> !HasId(s, NextId(s))
    ensures r.result.Err? ==> r.result.error == Internal && r.store == s
    ensures r.result.Ok? ==> r.store == s + [r.result.value]
    ensures r.result.Ok? ==>
              && r.result.value.id == NextId(s)
              && r.result.value.name == name
              && r.result.value.description == description
              && r.result.value.createdBy == createdBy
              && r.result.value.createdAt == now
    ensures MaxId(s) < U32_MAX ==> r.result.Ok?
    ensures UniqueIds(s) ==> UniqueIds(r.store)
  {
    NextIdIsFresh(s);
    var stock := NewStock(NextId(s), name, description, createdBy, now);
    match Insert(s, stock)
    case Err(_) => Reply(s, Err(Internal))
    case Ok(s') =>
      match Last(s')
      case None => Reply(s', Err(Internal))
      case Some(last) => Reply(s', Ok(last))
  }

  /** `get_by_id`: the record with key `id`, unchanged, or `NotFound`. */
  function GetById(s: Store, id: u32): (r: Reply<Stock>)
    ensures r.store == s
    ensures r.result.Ok? <==> HasId(s, id)
    ensures r.result.Err? ==> r.result.error == NotFound
    ensures r.result.Ok? ==> r.result.value in s && r.result.value.id == id
    ensures r.result.Ok? && UniqueIds(s) ==>
              forall i :: 0 <= i < |s| && s[i].id == id ==> s[i] == r.result.value
    ensures r.result.Ok? ==> FindIndex(s, id).Some? && r.result.value == s[FindIndex(s, id).value]
  {
    match FindId(s, id)
    case None => Reply(s, Err(NotFound))
    case Some(stock) => Reply(s, Ok(stock))
  }

  /** `t` is `s` with record `i` updated to `name` and `description` and nothing else changed. */
  predicate UpdatedAt(s: Store, t: Store, i: nat, name: string, description: string)
  {
    && i < |s| && |t| == |s|
    && t[i] == Update(s[i], name, description)
    && forall j :: 0 <= j < |s| && j != i ==> t[j] == s[j]
  }

  /** `update_by_id`: overwrite the two editable fields of the record with key `id` in place. */
  function UpdateById(s: Store, id: u32, name: string, description: string): (r: Reply<Stock>)
    ensures |r.store| == |s|
    ensures r.result.Ok? <==> HasId(s, id)
    ensures r.result.Err? ==> r.result.error == NotFound && r.store == s
    ensures r.result.Ok? ==>
              exists i :: 0 <= i < |s| && s[i].id == id && UpdatedAt(s, r.store, i, name, description)
                       && r.result.value == r.store[i]
    ensures r.result.Ok? ==> r.result.value.name == name && r.result.value.description == description
    ensures forall j :: 0 <= j < |s| ==> SameIdentity(r.store[j], s[j])
    ensures r.result.Ok? ==> FindIndex(s, id).Some? && r.store == s[FindIndex(s, id).value := r.result.value]
  {
    match FindIndex(s, id)
    case None => Reply(s, Err(NotFound))
    case Some(i) =>
      var updated := Update(s[i], name, description);
      var s' := s[i := updated];
      assert UpdatedAt(s, s', i, name, description);
      Reply(s', Ok(updated))
  }

  /** `get_all`: every record, in store order. */
  function GetAll(s: Store): (r: Reply<seq<Stock>>)
    ensures r.store == s
    ensures r.result.Ok?
    ensures |r.result.value| == |s|
    ensures forall i :: 0 <= i < |s| ==> r.result.value[i] == s[i]
  {
    Reply(s, Ok(s))
  }
}

=== FILE: stock.dfy ===
/** The `Stock` record: a named storage location with its creation metadata. */
module StockRecord {

  /** Rust's `u32`. */
  newtype u32 = x: int | 0 <= x < 0x1_0000_0000

  const U32_MAX: u32 := 0xFFFF_FFFF

  /** An instant as produced by the clock; the model never inspects it. */
  datatype Timestamp = Timestamp(ticks: int)

  datatype Stock = Stock(
    id: u32,
    name: string,
    description: string,
    createdAt: Timestamp,
    createdBy: u32)

  /** The fields fixed at creation: the store key and the creation metadata. */
  predicate SameIdentity(a: Stock, b: Stock)
  {
    a.id == b.id && a.createdAt == b.createdAt && a.createdBy == b.createdBy
  }

  /** `Stock::new`; the clock reading `now` is passed in instead of read. */
  function NewStock(id: u32, name: string, description: string, createdBy: u32, now: Timestamp): (r: Stock)
    ensures r.id == id && r.name == name && r.description == description
    ensures r.createdBy == createdBy && r.createdAt == now
  {
    Stock(id, name, description, now, createdBy)
  }

  /** `Stock::update`: replaces both editable fields and yields the record itself. */
  function Update(s: Stock, name: string, description: string): (r: Stock)
    ensures r.name == name && r.description == description
    ensures SameIdentity(r, s)
  {
    s.(name := name, description := description)
  }

  /** `VecPackMember::get_id`: the key the store indexes records by. */
  function GetId(s: Stock): (r: u32)
    ensures r == s.id
  {
    s.id
  }

  /** Updating twice with the same arguments is the same as updating once. */
  lemma UpdateIdempotent(s: Stock, name: string, description: string)
    ensures Update(Update(s, name, description), name, description) == Update(s, name, description)
  {
  }

  /** An update is total: the result depends only on the identity fields and the new arguments. */
  lemma UpdateForgetsPreviousEdits(s: Stock, n1: string, d1: string, name: string, description: string)
    ensures Update(Update(s, n1, d1), name, description) == Update(s, name, description)
  {
  }
}

=== FILE: wrappers.dfy ===
/** Failure-carrying datatypes shared by the record store and the service. */
module Wrappers {

  /** A value that may be absent, as Rust's `Option`. */
  datatype Option<+T> = None | Some(value: T)

  /** Either a value or an error, as Rust's `Result`. */
  datatype Result<+T, +E> = Ok(value: T) | Err(error: E)
}
